=== FILE: README.md ===
# Emissions calculator of the AskYou ESG demo page

This project models the one piece of behaviour in the AskYou marketing site:
the carbon-emissions calculator on the Demo page (`src/app/demo/page.tsx`).
The page offers three scenarios (business trip, building electricity,
employee commuting). Each has a questionnaire whose answers are kept in one
map keyed by question label. Every question's label is always displayed, but
some business-trip questions get an input control only for one transportation
mode (their `showIf` test). Whenever an answer or the active scenario changes,
the active scenario's calculator writes a three-field result record:
organization emissions, a second figure and the emission factor used. Any
field may be `null`, which the page shows as "Calculating...".

Modules, one per part of the page:

- `Text`: substring test (`includes`) and ASCII lower-casing (`toLowerCase`).
- `Factors`: the constant factor tables and the haul-class choice by substring.
- `Questions`: scenario questionnaires, the answer map, the `showIf` rules.
- `Calculators`: the three calculators as functions over `real`.
- `CalculatorLaws`: the rules each calculator follows, stated for all answer maps.
- `Session`: the page state as a class `Demo` (scenario, answers, results), with
  the recomputing effect, `handleInputChange` and the scenario buttons.

The result record reuses one field for different things, as the page does.
`buildingEmissions` holds the building's emissions for electricity. For a
business trip it holds the (annualized) distance. For commuting it holds the
distance per employee.

`parseFloat` is a parameter `parse: string -> real` of the calculators and of
`Demo`. A missing or empty answer reads 0, as `|| '0'` makes it. All
quantities are exact reals.

Behaviour of the page the model keeps:
- Switching scenario does not clear the answers. The buttons only set the
  active scenario, so an answer given in one scenario stays in the map
  (`Session.SwitchKeepsEarlierAnswers`).
- The car formula divides the distance by the fuel efficiency, splits the
  fuel among the occupants and multiplies by the per-litre factor.
- Commuting works from four bucketed selects (head count, method, distance,
  remote-work share) with midpoint tables and 240 working days.
- An unknown electricity provider is not turned into "incomplete". The page
  multiplies by `undefined` instead.
- A car trip with a missing input gives zeros, not `null`.

## Model

| member | source | states |
|---|---|---|
| `Text.Contains` | src/app/demo/page.tsx:310-316 | `s.includes(t)` holds exactly when some window of `s` equals `t` |
| `Text.ToLower` | src/app/demo/page.tsx:286 | `toLowerCase` keeps the length, leaves no upper-case ASCII letter, keeps every other character and shifts each upper-case letter to its lower-case form |
| `Text.ToLowerIdempotent` | src/app/demo/page.tsx:286 | lower-casing an already lower-cased answer changes nothing |
| `Text.ToLowerEmpty` | src/app/demo/page.tsx:286-288 | a lower-cased fuel answer is empty (falsy) exactly when the answer is |
| `Factors.ProviderFactor` | src/app/demo/page.tsx:20-24 | the provider table has exactly the keys HK Electric, CLP, Other, each with a factor in (0, 1) |
| `Factors.CarFuel` | src/app/demo/page.tsx:27-41 | the car table has exactly the keys gasoline, diesel, hybrid, each with 0 < per-litre < per-gallon |
| `Factors.CarColumnsAgree` | src/app/demo/page.tsx:28-41 | each per-gallon factor equals its per-litre factor times a US gallon's volume, to within 0.02 kg |
| `Factors.FlightFactor` | src/app/demo/page.tsx:308-316 | the airplane factor is one of 0.156, 0.131, 0.115, 0, and is 0 exactly when the flight type contains none of Short, Medium, Long |
| `Questions.AnswerOf` | src/app/demo/page.tsx:221 | a question with no answer reads as the empty (falsy) string |
| `Questions.ScenarioQuestions` | src/app/demo/page.tsx:73-211 | every questionnaire starts with an unconditional question |
| `Questions.VisibleQuestions` | src/app/demo/page.tsx:424-428 | the questions that get an input control are a filter of the questionnaire, in order, and never more |
| `Questions.VisibleQuestionsMembers` | src/app/demo/page.tsx:426 | a question gets an input control exactly when it is in the questionnaire and its `showIf` is absent or true |
| `Questions.LabelsDistinct` | src/app/demo/page.tsx:73-211 | within a scenario no two questions share a label, so one answer key belongs to one question |
| `Questions.ShowIfRefersToEarlierQuestion` | src/app/demo/page.tsx:77-142 | every `showIf` tests an earlier question of the same scenario, against one of that question's options |
| `Questions.AirplaneAndCarQuestionsExclusive` | src/app/demo/page.tsx:93-129 | no Airplane-only question ever gets an input control together with a Car-only question |
| `Questions.BusinessTripVisibleByAirplane` | src/app/demo/page.tsx:77-142 | with Airplane chosen exactly mode, flight type, flight distance and frequency get an input control |
| `Questions.BusinessTripVisibleByCar` | src/app/demo/page.tsx:77-142 | with Car chosen exactly mode, fuel type, distance, efficiency, occupants and frequency get an input control |
| `Questions.BusinessTripVisibleWithoutMode` | src/app/demo/page.tsx:77-142 | with no mode chosen only the mode and frequency questions get an input control |
| `Questions.UnconditionalScenarios` | src/app/demo/page.tsx:145-209 | every electricity and commuting question always gets its input control |
| `Calculators.ReadNumber` | src/app/demo/page.tsx:217-220 | a missing or empty numeric answer reads 0 |
| `Calculators.OrganizationUsage` | src/app/demo/page.tsx:236-249 | organization usage exists exactly when the metered figure is positive or all three building figures are, and is then positive |
| `Calculators.ElectricityEmissions` | src/app/demo/page.tsx:213-267 | the electricity record is all-`null` or has no `null` field, and a complete one always reports a factor |
| `Calculators.Occupants` | src/app/demo/page.tsx:285 | occupants are between 1 and 5: "2", "3", "4" read as 2, 3, 4, "5+" is 5, missing or "1" is 1 |
| `Calculators.CarTrip` | src/app/demo/page.tsx:281-304 | the car branch throws only for a non-empty fuel answer; otherwise emissions, distance and factor are non-negative |
| `Calculators.AirplaneTrip` | src/app/demo/page.tsx:305-324 | the airplane branch reports no fuel |
| `Calculators.FrequencyMultiplier` | src/app/demo/page.tsx:327-336 | the annual multiplier is at least 1 |
| `Calculators.Annualize` | src/app/demo/page.tsx:338-345 | annualizing never changes the reported factor |
| `Calculators.Trip` | src/app/demo/page.tsx:273-324 | only the car branch can fail, and every factor is non-negative |
| `Calculators.BusinessTripEmissions` | src/app/demo/page.tsx:269-355 | the business-trip record is all-`null` or has all three figures |
| `Calculators.EmployeesMidpoint` | src/app/demo/page.tsx:367-371 | the head-count midpoint is non-negative |
| `Calculators.DistanceMidpoint` | src/app/demo/page.tsx:374-378 | the distance midpoint is non-negative |
| `Calculators.OfficeWorkRatio` | src/app/demo/page.tsx:381-384 | the office share lies in (0, 1] |
| `Calculators.CommuteFactor` | src/app/demo/page.tsx:387-391 | the commute factor lies in [0, 1) |
| `Calculators.CommuteTotalDistance` | src/app/demo/page.tsx:393-397 | the annual commuting distance is non-negative |
| `Calculators.CommutingEmissions` | src/app/demo/page.tsx:357-415 | commuting emissions and factor are always numbers, and the per-employee figure is never `null` |
| `CalculatorLaws.ElectricityIncompleteExactly` | src/app/demo/page.tsx:224-249 | all-`null` exactly when no provider is chosen, or there is no positive metered figure and not all of the building area, occupied area and building usage are positive |
| `CalculatorLaws.ElectricityComplete` | src/app/demo/page.tsx:236-258 | a positive metered figure wins, else usage is occupied/total area times building usage; org emissions = usage × f, building = building usage × f, factor = f |
| `CalculatorLaws.ElectricityProviderFactors` | src/app/demo/page.tsx:20-24 | the reported factor is 0.66 (HK Electric), 0.37 (CLP), 0.81 × 0.453592 (Other), NaN for an unknown provider |
| `CalculatorLaws.ElectricityAreaShare` | src/app/demo/page.tsx:239-252 | without metering, org emissions are building emissions scaled by the area share, so they are at most the building's when the occupied area fits |
| `CalculatorLaws.ElectricityNonNegative` | src/app/demo/page.tsx:251-252 | with a non-negative building usage every figure is non-negative and org emissions are positive |
| `CalculatorLaws.ElectricityMeteredExample` | src/app/demo/page.tsx:236-258 | HK Electric, 1000 kWh metered: 660 kg CO2 |
| `CalculatorLaws.ElectricitySharedExample` | src/app/demo/page.tsx:239-258 | CLP, 10000 kWh, 250 of 1000 m2: 925 kg CO2, building 3700 kg CO2 |
| `CalculatorLaws.CarRule` | src/app/demo/page.tsx:281-304 | emissions = distance / efficiency / occupants × per-litre × multiplier only when distance > 0, efficiency > 0 and a fuel is chosen; reported distance = distance / occupants × multiplier; an unknown fuel gives `null`, anything else gives zeros |
| `CalculatorLaws.CarSharingSplitsEmissions` | src/app/demo/page.tsx:290-297 | the occupants' shares add up to the whole car's fuel burnt times the per-litre factor |
| `CalculatorLaws.AirplaneRule` | src/app/demo/page.tsx:305-346 | emissions = distance × haul factor × multiplier, distance × multiplier, factor unscaled |
| `CalculatorLaws.NoModeRule` | src/app/demo/page.tsx:273-279 | with no transportation mode the record is three zeros, not `null` |
| `CalculatorLaws.BusinessTripIncompleteExactly` | src/app/demo/page.tsx:288-296 | all-`null` exactly when a car trip is otherwise complete and its fuel has no table row; the page's fuel options never get there |
| `CalculatorLaws.FrequencyScales` | src/app/demo/page.tsx:327-345 | changing the frequency multiplies emissions and distance by its multiplier and never changes the reported factor |
| `CalculatorLaws.SameTripOtherFrequency` | src/app/demo/page.tsx:273-324 | the one-trip figures do not depend on the frequency answer |
| `CalculatorLaws.FrequencyOptions` | src/app/demo/page.tsx:330-336 | One-time trip and Annually give 1, Weekly 52, Monthly 12, Quarterly 4 |
| `CalculatorLaws.FuelOptionsHaveFactors` | src/app/demo/page.tsx:104-108 | every fuel option, lower-cased, has a row in the car table, with per-litre factors 2.34 (Gasoline), 2.68 (Diesel) and 1.32 (Hybrid) |
| `CalculatorLaws.FlightOptionsHaveFactors` | src/app/demo/page.tsx:85-94 | the short, medium and long flight options select 0.156, 0.131 and 0.115 |
| `CalculatorLaws.ShortFlightExample` | src/app/demo/page.tsx:305-346 | a one-time 400 km short-haul flight emits 62.4 kg CO2 |
| `CalculatorLaws.CommutingRule` | src/app/demo/page.tsx:366-406 | emissions = head count × distance × 2 × 240 × office share × method factor; per-employee distance = distance × 2 × 240 × office share, NaN when the head count is unanswered |
| `CalculatorLaws.CommutingNaNExactly` | src/app/demo/page.tsx:367-371 | the per-employee figure is NaN exactly when the head count is not one of its options |
| `CalculatorLaws.PerEmployeeDistanceIgnoresHeadCount` | src/app/demo/page.tsx:397-404 | any two head-count buckets give the same per-employee distance |
| `CalculatorLaws.WalkingOrCyclingEmitsNothing` | src/app/demo/page.tsx:390 | Walking/Cycling has factor 0 and so emits nothing |
| `CalculatorLaws.CommutingNonNegative` | src/app/demo/page.tsx:397-405 | commuting emissions and factor are non-negative numbers |
| `CalculatorLaws.RemoteWorkBucketsOrdered` | src/app/demo/page.tsx:380-384 | the remote-work options in select order leave ever smaller office shares |
| `CalculatorLaws.RemoteWorkLowersEmissions` | src/app/demo/page.tsx:380-400 | a smaller office share never raises commuting emissions |
| `CalculatorLaws.SelectOptionsHaveEntries` | src/app/demo/page.tsx:179-202 | each provider option has a factor, each head-count and distance bucket a positive midpoint, each commute method a factor that is 0 only for walking or cycling |
| `CalculatorLaws.CommutingTableValues` | src/app/demo/page.tsx:367-391 | each select option gets its table value: head counts 5/30/125/250, distances 2.5/10/23/35 km, office shares 1/0.9/0.65/0.4, method factors 0.04/0.2/0/0.12 |
| `CalculatorLaws.CommutingExample` | src/app/demo/page.tsx:366-406 | under 10 employees by public transit, 5-15 km, no remote work: 960 kg CO2, 4800 km each |
| `Session.Calculate` | src/app/demo/page.tsx:64-70 | whichever calculator runs, the record is all-`null` or its emissions field is set |
| `Session.Dispatch` | src/app/demo/page.tsx:63-71 | with no active scenario the effect leaves the results as they were |
| `Session.DispatchIdempotent` | src/app/demo/page.tsx:63-71 | re-running the effect on unchanged answers and scenario changes nothing |
| `Session.Demo.constructor` | src/app/demo/page.tsx:50-60 | the page starts with no scenario, no answers and all-`null` results |
| `Session.Demo.Recompute` | src/app/demo/page.tsx:63-71 | the effect writes the active scenario's calculation |
| `Session.Demo.HandleInputChange` | src/app/demo/page.tsx:417-422 | sets exactly one answer, keeps every other answer and the scenario, and leaves the results up to date |
| `Session.Demo.SetActiveScenario` | src/app/demo/page.tsx:498-519 | a scenario button switches the scenario, keeps all answers and recomputes |
| `Session.Demo.ShowsInput` | src/app/demo/page.tsx:424-428 | a question of the active scenario passes the `showIf` test exactly when it is among that scenario's questions that get an input control |
| `Session.SwitchKeepsEarlierAnswers` | src/app/demo/page.tsx:499-517 | a fuel answer from the business-trip form survives the switch to electricity |

## Left out

- Every question's label and required marker are always displayed, whatever its `showIf` says (src/app/demo/page.tsx:537-545); the model covers only the `showIf` test, which decides whether the input control is drawn.
- Rendering (the JSX of the questions, the result panel and the buttons) and `formatNumber`'s `toFixed(2)`: presentation and float formatting.
- IEEE-754 arithmetic: quantities are exact reals. There is no rounding, no infinity, and no NaN produced by `parseFloat` of text that is not a number.
- `parseFloat` itself: it is the parameter `parse`, a call into code outside the model.
- `Calculators.Occupants`: an answer outside the select's options ("1" to "4", "5+"), which the select cannot produce, reads 1. The page would run `parseInt` on it and get whatever integer that returns, or NaN.
- `Calculators.ElectricityEmissions`: an unknown provider key, which the select cannot produce, is reported as NaN in all three fields. The page gets NaN products and an `undefined` factor.
- `Text.ToLower`: only ASCII letters are lower-cased; JavaScript lower-cases all of Unicode.
- `Factors.CarFuel`: keys inherited from the object prototype (such as `constructor`) are treated as missing rows.
- The `try`/`catch` paths for errors other than the missing fuel row, and `console.error` (I/O).
- The `if (activeScenario !== ...) return;` guard at the top of each calculator. The effect calls a calculator only when its own scenario is active, so the guard never fires.
- React scheduling: each change runs the effect at once. The render in between, which still shows the previous results, is not modelled.
- The `required` flags are only displayed and never enforced. They are kept as data and nothing else.
- The per-gallon column of the car table is never used by the calculation. It is kept as data.

=== FILE: calculator_laws.dfy ===
/**
 * What the three calculators promise, stated over all answer maps: when the
 * result is `null`, which branch and which factor apply, how trip frequency
 * scales the figures, and how the commuting buckets combine.
 */
module CalculatorLaws {
  import opened Text
  import opened Factors
  import opened Questions
  import opened Calculators

  // ---------------------------------------------------------------- electricity

  /**
   * The electricity result is all `null` exactly when no provider is chosen,
   * or there is no positive metered figure and not all of building area,
   * occupied area and building usage are positive. (The page's first guard,
   * zero area and zero metered usage, is subsumed by the second.)
   */
  lemma ElectricityIncompleteExactly(a: Answers, parse: string -> real)
    ensures var metered := ReadNumber(a, MeteredUsageLabel, parse);
      var totalArea := ReadNumber(a, TotalAreaLabel, parse);
      var orgArea := ReadNumber(a, OrganizationAreaLabel, parse);
      var totalUsage := ReadNumber(a, BuildingUsageLabel, parse);
      var missing := AnswerOf(a, ProviderLabel) == ""
        || (!(metered > 0.0) && !(totalArea > 0.0 && orgArea > 0.0 && totalUsage > 0.0));
      ElectricityEmissions(a, parse) == Incomplete <==> missing
  {
  }

  /**
   * A complete electricity result: organization emissions are the usage
   * (metered if positive, else the occupied share of the building's usage)
   * times the provider factor, building emissions are the building usage
   * times the same factor, and the factor itself is reported unchanged.
   */
  lemma ElectricityComplete(a: Answers, parse: string -> real)
    requires ElectricityEmissions(a, parse) != Incomplete
    requires AnswerOf(a, ProviderLabel) in {"HK Electric", "CLP", "Other"}
    ensures var metered := ReadNumber(a, MeteredUsageLabel, parse);
      var totalArea := ReadNumber(a, TotalAreaLabel, parse);
      var orgArea := ReadNumber(a, OrganizationAreaLabel, parse);
      var totalUsage := ReadNumber(a, BuildingUsageLabel, parse);
      var f := ProviderFactor(AnswerOf(a, ProviderLabel)).value;
      var r := ElectricityEmissions(a, parse);
      && r.emissionFactor == Value(f)
      && r.buildingEmissions == Value(totalUsage * f)
      && (metered > 0.0 ==> r.organizationEmissions == Value(metered * f))
      && (!(metered > 0.0) ==> r.organizationEmissions == Value(orgArea / totalArea * totalUsage * f))
  {
  }

  /** The reported factor is the provider's: 0.66 for HK Electric, 0.37 for CLP, 0.81 lb converted to kg for Other. */
  lemma ElectricityProviderFactors(a: Answers, parse: string -> real)
    requires ElectricityEmissions(a, parse) != Incomplete
    ensures var p := AnswerOf(a, ProviderLabel);
      var f := ElectricityEmissions(a, parse).emissionFactor;
      && (p == "HK Electric" ==> f == Value(0.66))
      && (p == "CLP" ==> f == Value(0.37))
      && (p == "Other" ==> f == Value(0.81 * 0.453592))
      && (p !in {"HK Electric", "CLP", "Other"} ==> f == NaN)
  {
  }

  /**
   * Without a metered figure the organization's emissions are the building's
   * emissions scaled by the occupied share of the floor area, so they never
   * exceed the building's when the occupied area fits in the building.
   */
  lemma ElectricityAreaShare(a: Answers, parse: string -> real)
    requires ElectricityEmissions(a, parse).organizationEmissions.Value?
    requires !(ReadNumber(a, MeteredUsageLabel, parse) > 0.0)
    ensures var totalArea := ReadNumber(a, TotalAreaLabel, parse);
      var orgArea := ReadNumber(a, OrganizationAreaLabel, parse);
      var r := ElectricityEmissions(a, parse);
      && r.buildingEmissions.Value?
      && r.organizationEmissions.v == orgArea / totalArea * r.buildingEmissions.v
      && (orgArea <= totalArea ==> r.organizationEmissions.v <= r.buildingEmissions.v)
  {
  }

  /** With non-negative inputs every electricity figure is non-negative. */
  lemma ElectricityNonNegative(a: Answers, parse: string -> real)
    requires ReadNumber(a, BuildingUsageLabel, parse) >= 0.0
    ensures var r := ElectricityEmissions(a, parse);
      && (r.organizationEmissions.Value? ==> r.organizationEmissions.v > 0.0)
      && (r.buildingEmissions.Value? ==> r.buildingEmissions.v >= 0.0)
      && (r.emissionFactor.Value? ==> r.emissionFactor.v > 0.0)
  {
  }

  /** HK Electric with 1000 kWh metered: 660 kg CO2. */
  lemma ElectricityMeteredExample(parse: string -> real)
    requires parse("1000") == 1000.0
    ensures ElectricityEmissions(map[ProviderLabel := "HK Electric", MeteredUsageLabel := "1000"], parse)
      == Results(Value(660.0), Value(0.0), Value(0.66))
  {
  }

  /** CLP, 10000 kWh over 1000 m2, 250 m2 occupied: 2500 kWh, 925 kg CO2. */
  lemma ElectricitySharedExample(parse: string -> real)
    requires parse("10000") == 10000.0 && parse("1000") == 1000.0 && parse("250") == 250.0
    ensures ElectricityEmissions(map[ProviderLabel := "CLP", BuildingUsageLabel := "10000",
        TotalAreaLabel := "1000", OrganizationAreaLabel := "250"], parse)
      == Results(Value(925.0), Value(3700.0), Value(0.37))
  {
  }

  // -------------------------------------------------------------- business trip

  /**
   * The car rule. With a positive distance, a positive fuel efficiency and a
   * fuel type chosen, each occupant's share of the fuel burnt times the fuel's
   * per-litre factor, scaled by the trip frequency; the reported distance is
   * each occupant's share, scaled too; the factor is the per-litre factor. A
   * fuel type without a table row gives all `null`. Any other car answer gives
   * zeros, not `null`.
   */
  lemma CarRule(a: Answers, parse: string -> real)
    requires AnswerOf(a, TransportationModeLabel) == "Car"
    ensures var distance := ReadNumber(a, CarDistanceLabel, parse);
      var efficiency := ReadNumber(a, FuelEfficiencyLabel, parse);
      var occupants := Occupants(a) as real;
      var fuel := ToLower(AnswerOf(a, CarFuelTypeLabel));
      var m := FrequencyMultiplier(AnswerOf(a, TripFrequencyLabel));
      var r := BusinessTripEmissions(a, parse);
      if distance > 0.0 && efficiency > 0.0 && AnswerOf(a, CarFuelTypeLabel) != "" then
        if CarFuel(fuel).Some? then
          var perLiter := CarFuel(fuel).value.perLiter;
          r == Results(Value(distance / efficiency / occupants * perLiter * m), Value(distance / occupants * m), Value(perLiter))
        else
          r == Incomplete
      else
        r == Results(Value(0.0), Value(0.0), Value(0.0))
  {
  }

  /**
   * Car sharing splits one car's emissions: the occupants' shares add up to
   * the fuel burnt (distance over efficiency) times the per-litre factor.
   */
  lemma CarSharingSplitsEmissions(a: Answers, parse: string -> real)
    requires AnswerOf(a, TransportationModeLabel) == "Car"
    requires BusinessTripEmissions(a, parse).emissionFactor.Value?
    requires BusinessTripEmissions(a, parse).emissionFactor.v > 0.0
    ensures var distance := ReadNumber(a, CarDistanceLabel, parse);
      var efficiency := ReadNumber(a, FuelEfficiencyLabel, parse);
      var m := FrequencyMultiplier(AnswerOf(a, TripFrequencyLabel));
      var r := BusinessTripEmissions(a, parse);
      && efficiency > 0.0
      && r.organizationEmissions.Value?
      && r.organizationEmissions.v * (Occupants(a) as real) == distance / efficiency * r.emissionFactor.v * m
  {
    CarRule(a, parse);
    var distance := ReadNumber(a, CarDistanceLabel, parse);
    var efficiency := ReadNumber(a, FuelEfficiencyLabel, parse);
    var occupants := Occupants(a) as real;
    var fuel := ToLower(AnswerOf(a, CarFuelTypeLabel));
    var m := FrequencyMultiplier(AnswerOf(a, TripFrequencyLabel));
    var perLiter := CarFuel(fuel).value.perLiter;
    var x := distance / efficiency;
    assert x / occupants * perLiter * m * occupants == x * perLiter * m;
  }

  /**
   * The airplane rule: distance times the haul factor of the flight type,
   * both scaled by the trip frequency; the factor is reported unscaled.
   */
  lemma AirplaneRule(a: Answers, parse: string -> real)
    requires AnswerOf(a, TransportationModeLabel) == "Airplane"
    ensures var distance := ReadNumber(a, FlightDistanceLabel, parse);
      var f := FlightFactor(AnswerOf(a, FlightTypeLabel));
      var m := FrequencyMultiplier(AnswerOf(a, TripFrequencyLabel));
      BusinessTripEmissions(a, parse) == Results(Value(distance * f * m), Value(distance * m), Value(f))
  {
  }

  /** Without a transportation mode (or with any other value) the trip is all zeros. */
  lemma NoModeRule(a: Answers, parse: string -> real)
    requires AnswerOf(a, TransportationModeLabel) !in {"Car", "Airplane"}
    ensures BusinessTripEmissions(a, parse) == Results(Value(0.0), Value(0.0), Value(0.0))
  {
  }

  /**
   * The business-trip result is all `null` only when a car trip is otherwise
   * complete and its fuel type has no row in the car table; the page's own
   * fuel options never get there.
   */
  lemma BusinessTripIncompleteExactly(a: Answers, parse: string -> real)
    ensures var fuel := AnswerOf(a, CarFuelTypeLabel);
      var unknownFuel := AnswerOf(a, TransportationModeLabel) == "Car"
        && ReadNumber(a, CarDistanceLabel, parse) > 0.0
        && ReadNumber(a, FuelEfficiencyLabel, parse) > 0.0
        && fuel != "" && CarFuel(ToLower(fuel)).None?;
      BusinessTripEmissions(a, parse) == Incomplete <==> unknownFuel
    ensures AnswerOf(a, CarFuelTypeLabel) in FuelTypeQuestion.options ==> BusinessTripEmissions(a, parse) != Incomplete
  {
  }

  /**
   * Trip frequency scales: answering `frequency` instead of a one-time trip
   * multiplies emissions and distance by its multiplier and leaves the
   * reported factor as it was.
   */
  lemma FrequencyScales(a: Answers, parse: string -> real, frequency: string)
    requires BusinessTripEmissions(a, parse) != Incomplete
    ensures var once := BusinessTripEmissions(a[TripFrequencyLabel := "One-time trip"], parse);
      var often := BusinessTripEmissions(a[TripFrequencyLabel := frequency], parse);
      var m := FrequencyMultiplier(frequency);
      && once.organizationEmissions.Value? && often.organizationEmissions.Value?
      && often.organizationEmissions.v == once.organizationEmissions.v * m
      && once.buildingEmissions.Value? && often.buildingEmissions.Value?
      && often.buildingEmissions.v == once.buildingEmissions.v * m
      && often.emissionFactor == once.emissionFactor
  {
    SameTripOtherFrequency(a, "One-time trip", parse);
    SameTripOtherFrequency(a, frequency, parse);
  }

  /** Changing only the frequency answer leaves the one-trip figures unchanged. */
  lemma SameTripOtherFrequency(a: Answers, frequency: string, parse: string -> real)
    ensures Trip(a[TripFrequencyLabel := frequency], parse) == Trip(a, parse)
  {
  }

  /** The frequency options map to 1, 52, 12, 4 and 1 trips a year. */
  lemma FrequencyOptions()
    ensures FrequencyQuestion.options == ["One-time trip", "Weekly", "Monthly", "Quarterly", "Annually"]
    ensures FrequencyMultiplier("One-time trip") == 1.0 && FrequencyMultiplier("Annually") == 1.0
    ensures FrequencyMultiplier("Weekly") == 52.0 && FrequencyMultiplier("Monthly") == 12.0
    ensures FrequencyMultiplier("Quarterly") == 4.0
  {
  }

  /** Each fuel option of the car select, lower-cased, has a row in the car table. */
  lemma FuelOptionsHaveFactors()
    ensures forall o :: o in FuelTypeQuestion.options ==> CarFuel(ToLower(o)).Some?
    ensures CarFuel(ToLower("Gasoline")).value.perLiter == 2.34
    ensures CarFuel(ToLower("Diesel")).value.perLiter == 2.68
    ensures CarFuel(ToLower("Hybrid")).value.perLiter == 1.32
  {
    assert ToLower("Gasoline") == "gasoline";
    assert ToLower("Diesel") == "diesel";
    assert ToLower("Hybrid") == "hybrid";
  }

  /** The short-haul option contains "Short": 0.156. */
  lemma ShortHaulOption()
    ensures FlightFactor("Short-haul (< 500 km)") == 0.156
  {
  }

  /** The medium-haul option contains "Medium" but not "Short": 0.131. */
  lemma MediumHaulOption()
    ensures FlightFactor("Medium-haul (500-3700 km)") == 0.131
  {
    MediumHaulNotShort();
    PrefixContained("Medium-haul (500-3700 km)", "Medium");
  }

  lemma MediumHaulNotShort()
    ensures !Contains("Medium-haul (500-3700 km)", "Short")
  {
    MissingFirstCharacter("Medium-haul (500-3700 km)", "Short");
  }

  /** The long-haul option contains "Long" and neither earlier key: 0.115. */
  lemma LongHaulOption()
    ensures FlightFactor("Long-haul (> 3700 km)") == 0.115
  {
    LongHaulNotShort();
    LongHaulNotMedium();
    LongHaulIsLong();
  }

  lemma LongHaulIsLong()
    ensures Contains("Long-haul (> 3700 km)", "Long")
  {
  }

  lemma LongHaulNotShort()
    ensures !Contains("Long-haul (> 3700 km)", "Short")
  {
    MissingFirstCharacter("Long-haul (> 3700 km)", "Short");
  }

  lemma LongHaulNotMedium()
    ensures !Contains("Long-haul (> 3700 km)", "Medium")
  {
    MissingFirstCharacter("Long-haul (> 3700 km)", "Medium");
  }

  /** Each flight-type option of the select picks its own haul factor. */
  lemma FlightOptionsHaveFactors()
    ensures FlightTypeQuestion.options == ["Short-haul (< 500 km)", "Medium-haul (500-3700 km)", "Long-haul (> 3700 km)"]
    ensures FlightFactor("Short-haul (< 500 km)") == ShortHaulFactor
    ensures FlightFactor("Medium-haul (500-3700 km)") == MediumHaulFactor
    ensures FlightFactor("Long-haul (> 3700 km)") == LongHaulFactor
  {
    ShortHaulOption();
    MediumHaulOption();
    LongHaulOption();
  }

  /** A one-time 400 km short-haul flight: 62.4 kg CO2. */
  lemma ShortFlightExample(parse: string -> real)
    requires parse("400") == 400.0
    ensures BusinessTripEmissions(map[TransportationModeLabel := "Airplane", FlightTypeLabel := "Short-haul (< 500 km)",
        FlightDistanceLabel := "400", TripFrequencyLabel := "One-time trip"], parse)
      == Results(Value(62.4), Value(400.0), Value(0.156))
  {
  }

  // ------------------------------------------------------------------ commuting

  /** The annual commuting distance is the head count times one employee's annual distance. */
  lemma CommuteTotalPerEmployee(a: Answers)
    ensures var employees := EmployeesMidpoint(AnswerOf(a, TotalEmployeesLabel));
      var distance := DistanceMidpoint(AnswerOf(a, CommuteDistanceLabel));
      var ratio := OfficeWorkRatio(AnswerOf(a, RemoteWorkLabel));
      CommuteTotalDistance(a) == employees * (distance * 2.0 * 240.0 * ratio)
  {
  }

  /**
   * The commuting rule: one employee's annual distance is the one-way
   * distance, both ways, over 240 working days, times the office share;
   * emissions are the head count times that distance times the method
   * factor; the per-employee figure is that distance, or NaN (0/0) while the
   * head count is unanswered. The result is never `null`.
   */
  lemma CommutingRule(a: Answers)
    ensures var employees := EmployeesMidpoint(AnswerOf(a, TotalEmployeesLabel));
      var distance := DistanceMidpoint(AnswerOf(a, CommuteDistanceLabel));
      var ratio := OfficeWorkRatio(AnswerOf(a, RemoteWorkLabel));
      var factor := CommuteFactor(AnswerOf(a, CommuteMethodLabel));
      var perEmployee := distance * 2.0 * 240.0 * ratio;
      var r := CommutingEmissions(a);
      && r.organizationEmissions == Value(employees * perEmployee * factor)
      && r.emissionFactor == Value(factor)
      && (employees == 0.0 <==> r.buildingEmissions == NaN)
      && (employees != 0.0 ==> r.buildingEmissions == Value(perEmployee))
  {
  }

  /** Only an unanswered (or unknown) head count makes the per-employee distance NaN. */
  lemma CommutingNaNExactly(a: Answers)
    ensures CommutingEmissions(a).buildingEmissions == NaN
      <==> AnswerOf(a, TotalEmployeesLabel) !in EmployeesQuestion.options
  {
  }

  /** The per-employee distance does not depend on which head-count bucket is chosen. */
  lemma PerEmployeeDistanceIgnoresHeadCount(a: Answers, bucket: string)
    requires bucket in EmployeesQuestion.options
    requires AnswerOf(a, TotalEmployeesLabel) in EmployeesQuestion.options
    ensures CommutingEmissions(a[TotalEmployeesLabel := bucket]).buildingEmissions
      == CommutingEmissions(a).buildingEmissions
  {
    var b := a[TotalEmployeesLabel := bucket];
    assert AnswerOf(b, CommuteDistanceLabel) == AnswerOf(a, CommuteDistanceLabel);
    assert AnswerOf(b, RemoteWorkLabel) == AnswerOf(a, RemoteWorkLabel);
    assert AnswerOf(b, CommuteMethodLabel) == AnswerOf(a, CommuteMethodLabel);
    CommutingRule(a);
    CommutingRule(b);
  }

  /** Walking or cycling emits nothing, whatever the other answers. */
  lemma WalkingOrCyclingEmitsNothing(a: Answers)
    requires AnswerOf(a, CommuteMethodLabel) == "Walking/Cycling"
    ensures CommutingEmissions(a).organizationEmissions == Value(0.0)
  {
  }

  /** Commuting figures are never negative. */
  lemma CommutingNonNegative(a: Answers)
    ensures var r := CommutingEmissions(a);
      && r.organizationEmissions.Value? && r.organizationEmissions.v >= 0.0
      && (r.buildingEmissions.Value? ==> r.buildingEmissions.v > 0.0 || AnswerOf(a, CommuteDistanceLabel) !in CommuteDistanceQuestion.options)
      && r.emissionFactor.Value? && r.emissionFactor.v >= 0.0
  {
  }

  /** The remote-work buckets, in the select's order, leave ever fewer office days. */
  lemma RemoteWorkBucketsOrdered()
    ensures RemoteWorkQuestion.options == ["0%", "1-20%", "21-50%", "Over 50%"]
    ensures OfficeWorkRatio("0%") > OfficeWorkRatio("1-20%") > OfficeWorkRatio("21-50%") > OfficeWorkRatio("Over 50%") > 0.0
  {
  }

  /** Answering a bucket with a smaller office share never raises commuting emissions. */
  lemma RemoteWorkLowersEmissions(a: Answers, less: string, more: string)
    requires OfficeWorkRatio(more) <= OfficeWorkRatio(less)
    ensures CommutingEmissions(a[RemoteWorkLabel := more]).organizationEmissions.v
      <= CommutingEmissions(a[RemoteWorkLabel := less]).organizationEmissions.v
  {
    var lo, hi := a[RemoteWorkLabel := more], a[RemoteWorkLabel := less];
    assert AnswerOf(lo, TotalEmployeesLabel) == AnswerOf(hi, TotalEmployeesLabel);
    assert AnswerOf(lo, CommuteDistanceLabel) == AnswerOf(hi, CommuteDistanceLabel);
    assert AnswerOf(lo, CommuteMethodLabel) == AnswerOf(hi, CommuteMethodLabel);
    CommutingRule(lo);
    CommutingRule(hi);
    var employees := EmployeesMidpoint(AnswerOf(lo, TotalEmployeesLabel));
    var distance := DistanceMidpoint(AnswerOf(lo, CommuteDistanceLabel));
    var factor := CommuteFactor(AnswerOf(lo, CommuteMethodLabel));
    ScaledByOfficeShare(employees, distance, factor, OfficeWorkRatio(more), OfficeWorkRatio(less));
  }

  /** Emissions grow with the office share when every other factor is non-negative. */
  lemma ScaledByOfficeShare(employees: real, distance: real, factor: real, low: real, high: real)
    requires employees >= 0.0 && distance >= 0.0 && factor >= 0.0 && low <= high
    ensures employees * (distance * 2.0 * 240.0 * low) * factor <= employees * (distance * 2.0 * 240.0 * high) * factor
  {
  }

  /**
   * Every option of the provider and commuting selects has its own table
   * entry: each provider a factor, each head-count and distance bucket a
   * positive midpoint, each commute method a factor (zero only for walking or
   * cycling).
   */
  lemma SelectOptionsHaveEntries()
    ensures forall o :: o in ProviderQuestion.options ==> ProviderFactor(o).Some?
    ensures forall o :: o in EmployeesQuestion.options ==> EmployeesMidpoint(o) > 0.0
    ensures forall o :: o in CommuteDistanceQuestion.options ==> DistanceMidpoint(o) > 0.0
    ensures forall o :: o in CommuteMethodQuestion.options ==> (CommuteFactor(o) == 0.0 <==> o == "Walking/Cycling")
  {
  }

  /**
   * The bucket tables, option by option in select order: head-count midpoints
   * 5, 30, 125, 250; distance midpoints 2.5, 10, 23, 35 km; office shares 1,
   * 0.9, 0.65, 0.4; method factors 0.04, 0.2, 0, 0.12 kg CO2 per km.
   */
  lemma CommutingTableValues()
    ensures EmployeesMidpoint(EmployeesQuestion.options[0]) == 5.0
    ensures EmployeesMidpoint(EmployeesQuestion.options[1]) == 30.0
    ensures EmployeesMidpoint(EmployeesQuestion.options[2]) == 125.0
    ensures EmployeesMidpoint(EmployeesQuestion.options[3]) == 250.0
    ensures DistanceMidpoint(CommuteDistanceQuestion.options[0]) == 2.5
    ensures DistanceMidpoint(CommuteDistanceQuestion.options[1]) == 10.0
    ensures DistanceMidpoint(CommuteDistanceQuestion.options[2]) == 23.0
    ensures DistanceMidpoint(CommuteDistanceQuestion.options[3]) == 35.0
    ensures OfficeWorkRatio(RemoteWorkQuestion.options[0]) == 1.0
    ensures OfficeWorkRatio(RemoteWorkQuestion.options[1]) == 0.9
    ensures OfficeWorkRatio(RemoteWorkQuestion.options[2]) == 0.65
    ensures OfficeWorkRatio(RemoteWorkQuestion.options[3]) == 0.4
    ensures CommuteFactor(CommuteMethodQuestion.options[0]) == 0.04
    ensures CommuteFactor(CommuteMethodQuestion.options[1]) == 0.2
    ensures CommuteFactor(CommuteMethodQuestion.options[2]) == 0.0
    ensures CommuteFactor(CommuteMethodQuestion.options[3]) == 0.12
  {
  }

  /** Fewer than 10 employees, public transit, 5-15 km, no remote work: 960 kg CO2, 4800 km each. */
  lemma CommutingExample()
    ensures CommutingEmissions(map[TotalEmployeesLabel := "Less than 10", CommuteMethodLabel := "Public Transit",
        CommuteDistanceLabel := "5-15km", RemoteWorkLabel := "0%"])
      == Results(Value(960.0), Value(4800.0), Value(0.04))
  {
  }
}

=== FILE: calculators.dfy ===
/**
 * The three emission calculators of the demo page. Each reads the answer map
 * and produces the record the page displays: organization emissions, a second
 * figure whose meaning depends on the scenario, and the emission factor used.
 */
module Calculators {
  import opened Wrappers
  import opened Text
  import opened Factors
  import opened Questions

  /** One displayed figure: `null` (shown as "Calculating..."), a number, or NaN. */
  datatype Figure = Null | Value(v: real) | NaN

  /**
   * The record written after each calculation. `buildingEmissions` is the
   * building's emissions for electricity, the annual travelled distance for a
   * business trip and the distance per employee for commuting.
   */
  datatype Results = Results(organizationEmissions: Figure, buildingEmissions: Figure, emissionFactor: Figure)

  /** The incomplete record: every field `null`. */
  const Incomplete := Results(Null, Null, Null)

  /**
   * `parseFloat(answers[key] || '0')`: a missing or empty answer reads 0,
   * anything else goes through the parser `parse`.
   */
  function ReadNumber(a: Answers, key: string, parse: string -> real): (x: real)
    ensures AnswerOf(a, key) == "" ==> x == 0.0
  {
    var s := AnswerOf(a, key);
    if s == "" then 0.0 else parse(s)
  }

  // ---------------------------------------------------------------- electricity

  /**
   * The kWh attributed to the organization: a positive metered figure wins;
   * otherwise the occupied share of the building's usage, when the three
   * building figures are all positive; otherwise nothing.
   */
  function OrganizationUsage(metered: real, totalArea: real, orgArea: real, totalUsage: real): (r: Option<real>)
    ensures r.Some? <==> metered > 0.0 || (totalArea > 0.0 && orgArea > 0.0 && totalUsage > 0.0)
    ensures r.Some? ==> r.value > 0.0
  {
    if metered > 0.0 then Some(metered)
    else if totalArea > 0.0 && orgArea > 0.0 && totalUsage > 0.0 then Some(orgArea / totalArea * totalUsage)
    else None
  }

  /**
   * `calculateElectricityEmissions`. An unknown provider key makes the page
   * multiply by `undefined`; that is reported as NaN.
   */
  function ElectricityEmissions(a: Answers, parse: string -> real): (r: Results)
    ensures r.organizationEmissions == Null <==> r == Incomplete
    ensures r != Incomplete ==> r.buildingEmissions != Null
    ensures r != Incomplete ==> r.emissionFactor != Null
  {
    var totalArea := ReadNumber(a, TotalAreaLabel, parse);
    var orgArea := ReadNumber(a, OrganizationAreaLabel, parse);
    var totalUsage := ReadNumber(a, BuildingUsageLabel, parse);
    var metered := ReadNumber(a, MeteredUsageLabel, parse);
    var provider := AnswerOf(a, ProviderLabel);
    if provider == "" || (totalArea == 0.0 && metered == 0.0) then
      Incomplete
    else
      var factor := ProviderFactor(provider);
      match OrganizationUsage(metered, totalArea, orgArea, totalUsage)
      case None => Incomplete
      case Some(usage) =>
        if factor.None? then Results(NaN, NaN, NaN)
        else Results(Value(usage * factor.value), Value(totalUsage * factor.value), Value(factor.value))
  }

  // -------------------------------------------------------------- business trip

  /** The per-trip figures before annualization; `fuelUsed` is computed but never displayed. */
  datatype TripFigures = TripFigures(emissions: real, fuelUsed: real, distance: real, emissionFactor: real)

  /** The figures of a trip that was not (yet) computed. */
  const NoTrip := TripFigures(0.0, 0.0, 0.0, 0.0)

  /** `parseInt(answers['Number of Occupants'] || '1')` over the select's options. */
  function Occupants(a: Answers): (n: nat)
    ensures 1 <= n <= 5
    ensures AnswerOf(a, OccupantsLabel) == "5+" ==> n == 5
    ensures AnswerOf(a, OccupantsLabel) in {"", "1"} ==> n == 1
    ensures AnswerOf(a, OccupantsLabel) == "2" ==> n == 2
    ensures AnswerOf(a, OccupantsLabel) == "3" ==> n == 3
    ensures AnswerOf(a, OccupantsLabel) == "4" ==> n == 4
  {
    var s := AnswerOf(a, OccupantsLabel);
    if s == "2" then 2 else if s == "3" then 3 else if s == "4" then 4 else if s == "5+" then 5 else 1
  }

  /**
   * The car branch. `None` is the `TypeError` thrown when a chosen fuel type
   * has no row in the car table (the page catches it and writes all `null`).
   */
  function CarTrip(a: Answers, parse: string -> real): (r: Option<TripFigures>)
    ensures r.None? ==> AnswerOf(a, CarFuelTypeLabel) != ""
    ensures r.Some? ==> r.value.emissions >= 0.0 && r.value.distance >= 0.0 && r.value.emissionFactor >= 0.0
  {
    var distance := ReadNumber(a, CarDistanceLabel, parse);
    var efficiency := ReadNumber(a, FuelEfficiencyLabel, parse);
    var occupants := Occupants(a) as real;
    var fuelType := ToLower(AnswerOf(a, CarFuelTypeLabel));
    if distance > 0.0 && efficiency > 0.0 && fuelType != "" then
      match CarFuel(fuelType)
      case None => None
      case Some(f) =>
        var fuelPerPerson := distance / efficiency / occupants;
        Some(TripFigures(fuelPerPerson * f.perLiter, fuelPerPerson, distance / occupants, f.perLiter))
    else
      Some(NoTrip)
  }

  /** The airplane branch: distance times the haul factor; no fuel figure. */
  function AirplaneTrip(a: Answers, parse: string -> real): (t: TripFigures)
    ensures t.fuelUsed == 0.0
  {
    var distance := ReadNumber(a, FlightDistanceLabel, parse);
    var factor := FlightFactor(AnswerOf(a, FlightTypeLabel));
    TripFigures(distance * factor, 0.0, distance, factor)
  }

  /** The annualization multiplier of a trip-frequency answer. */
  function FrequencyMultiplier(frequency: string): (m: real)
    ensures m >= 1.0
  {
    if frequency == "Weekly" then 52.0
    else if frequency == "Monthly" then 12.0
    else if frequency == "Quarterly" then 4.0
    else 1.0
  }

  /** Scale the emissions, distance and fuel figures (never the factor) by `m`. */
  function Annualize(t: TripFigures, m: real): (u: TripFigures)
    ensures u.emissionFactor == t.emissionFactor
  {
    TripFigures(t.emissions * m, t.fuelUsed * m, t.distance * m, t.emissionFactor)
  }

  /** The one-trip figures for the chosen transportation mode; other modes travel nowhere. */
  function Trip(a: Answers, parse: string -> real): (r: Option<TripFigures>)
    ensures r.None? ==> AnswerOf(a, TransportationModeLabel) == "Car"
    ensures r.Some? ==> r.value.emissionFactor >= 0.0
  {
    var mode := AnswerOf(a, TransportationModeLabel);
    if mode == "Car" then CarTrip(a, parse)
    else if mode == "Airplane" then Some(AirplaneTrip(a, parse))
    else Some(NoTrip)
  }

  /** `calculateBusinessTripEmissions`: the distance goes in the `buildingEmissions` field. */
  function BusinessTripEmissions(a: Answers, parse: string -> real): (r: Results)
    ensures r == Incomplete || (r.organizationEmissions.Value? && r.buildingEmissions.Value? && r.emissionFactor.Value?)
  {
    match Trip(a, parse)
    case None => Incomplete
    case Some(t) =>
      var annual := Annualize(t, FrequencyMultiplier(AnswerOf(a, TripFrequencyLabel)));
      Results(Value(annual.emissions), Value(annual.distance), Value(annual.emissionFactor))
  }

  // ------------------------------------------------------------------ commuting

  /** Working days per year: five days a week for 52 weeks, less 20 holidays. */
  const WorkingDays: real := (52 * 5 - 20) as real

  /** Midpoint of the head-count bucket; unanswered gives 0. */
  function EmployeesMidpoint(bucket: string): (n: real)
    ensures n >= 0.0
  {
    if bucket == "Less than 10" then 5.0
    else if bucket == "10-50" then 30.0
    else if bucket == "51-200" then 125.0
    else if bucket == "Over 200" then 250.0
    else 0.0
  }

  /** Midpoint of the one-way distance bucket in km; unanswered gives 0. */
  function DistanceMidpoint(bucket: string): (d: real)
    ensures d >= 0.0
  {
    if bucket == "Less than 5km" then 2.5
    else if bucket == "5-15km" then 10.0
    else if bucket == "16-30km" then 23.0
    else if bucket == "Over 30km" then 35.0
    else 0.0
  }

  /** Share of working days spent at the office for a remote-work bucket; unanswered gives 1. */
  function OfficeWorkRatio(bucket: string): (r: real)
    ensures 0.0 < r <= 1.0
  {
    if bucket == "1-20%" then 0.9
    else if bucket == "21-50%" then 0.65
    else if bucket == "Over 50%" then 0.4
    else 1.0
  }

  /** kg CO2 per km of a commute method; unanswered gives 0. */
  function CommuteFactor(commute: string): (f: real)
    ensures 0.0 <= f < 1.0
  {
    if commute == "Public Transit" then 0.04
    else if commute == "Personal Vehicle" then 0.2
    else if commute == "Walking/Cycling" then 0.0
    else if commute == "Mixed" then 0.12
    else 0.0
  }

  /** Annual km travelled by all employees, both ways, on office days. */
  function CommuteTotalDistance(a: Answers): (d: real)
    ensures d >= 0.0
  {
    EmployeesMidpoint(AnswerOf(a, TotalEmployeesLabel)) * DistanceMidpoint(AnswerOf(a, CommuteDistanceLabel))
      * 2.0 * WorkingDays * OfficeWorkRatio(AnswerOf(a, RemoteWorkLabel))
  }

  /**
   * `calculateCommutingEmissions`: the per-employee distance goes in the
   * `buildingEmissions` field, and is 0/0 (NaN) while the head count is unanswered.
   */
  function CommutingEmissions(a: Answers): (r: Results)
    ensures r.organizationEmissions.Value? && r.emissionFactor.Value? && r.buildingEmissions != Null
  {
    var employees := EmployeesMidpoint(AnswerOf(a, TotalEmployeesLabel));
    var totalDistance := CommuteTotalDistance(a);
    var factor := CommuteFactor(AnswerOf(a, CommuteMethodLabel));
    Results(Value(totalDistance * factor),
            if employees == 0.0 then NaN else Value(totalDistance / employees),
            Value(factor))
  }
}

=== FILE: factors.dfy ===
/**
 * The constant emission-factor tables of the demo calculator:
 * grid factors per electricity provider (kg CO2 per kWh), per-fuel car
 * factors (kg CO2 per gallon and per litre) and per-haul airplane factors
 * (kg CO2 per passenger-km), with the airplane factor chosen by substring.
 */
module Factors {
  import opened Wrappers
  import opened Text

  // Electricity providers (kg CO2/kWh).
  const HkElectricFactor: real := 0.66
  const ClpFactor: real := 0.37
  /** Kilograms per pound, used to convert the US factor of 0.81 lb/kWh. */
  const KgPerPound: real := 0.453592
  const OtherProviderFactor: real := 0.81 * KgPerPound

  /** Lookup in the provider table; a key outside the table is missing. */
  function ProviderFactor(provider: string): (r: Option<real>)
    ensures r.Some? <==> provider in {"HK Electric", "CLP", "Other"}
    ensures r.Some? ==> 0.0 < r.value < 1.0
  {
    if provider == "HK Electric" then Some(HkElectricFactor)
    else if provider == "CLP" then Some(ClpFactor)
    else if provider == "Other" then Some(OtherProviderFactor)
    else None
  }

  /** One row of the car table. */
  datatype FuelFactors = FuelFactors(perGallon: real, perLiter: real)

  /** Lookup in the car table, keyed by the lower-case fuel name. */
  function CarFuel(fuel: string): (r: Option<FuelFactors>)
    ensures r.Some? <==> fuel in {"gasoline", "diesel", "hybrid"}
    ensures r.Some? ==> 0.0 < r.value.perLiter < r.value.perGallon
  {
    if fuel == "gasoline" then Some(FuelFactors(8.87, 2.34))
    else if fuel == "diesel" then Some(FuelFactors(10.15, 2.68))
    else if fuel == "hybrid" then Some(FuelFactors(5.0, 1.32))
    else None
  }

  /** Litres per US gallon. */
  const LitersPerGallon: real := 3.785411784

  /**
   * The two columns of the car table describe the same fuel: each per-gallon
   * figure is its per-litre figure times a gallon's volume, to within 0.02 kg.
   */
  lemma CarColumnsAgree(fuel: string)
    requires CarFuel(fuel).Some?
    ensures var f := CarFuel(fuel).value;
      -0.02 < f.perLiter * LitersPerGallon - f.perGallon < 0.02
  {
  }

  // Airplane (kg CO2 per passenger-km).
  const ShortHaulFactor: real := 0.156
  const MediumHaulFactor: real := 0.131
  const LongHaulFactor: real := 0.115

  /**
   * The airplane factor for a flight-type answer: the first of "Short",
   * "Medium", "Long" that occurs in it decides; none gives 0.
   */
  function FlightFactor(flightType: string): (r: real)
    ensures r in {ShortHaulFactor, MediumHaulFactor, LongHaulFactor, 0.0}
    ensures r == 0.0 <==>
      !Contains(flightType, "Short") && !Contains(flightType, "Medium") && !Contains(flightType, "Long")
  {
    if Contains(flightType, "Short") then ShortHaulFactor
    else if Contains(flightType, "Medium") then MediumHaulFactor
    else if Contains(flightType, "Long") then LongHaulFactor
    else 0.0
  }
}

=== FILE: questions.dfy ===
/**
 * The three scenario questionnaires of the demo page, the answer map keyed by
 * question label, and the `showIf` visibility rules evaluated over it.
 */
module Questions {

  /** What the user has answered so far, keyed by question label. */
  type Answers = map<string, string>

  datatype Scenario = BusinessTrip | Electricity | Commuting

  datatype QuestionKind = Select | Radio | Text

  /**
   * A question's `showIf`: absent (the input control is always drawn), or drawn only while the
   * answer under `key` is strictly equal to `value`.
   */
  datatype ShowIf = Always | WhenAnswerIs(key: string, value: string)

  /** A question; the placeholder text is presentation and is not kept. */
  datatype Question = Question(questionLabel: string, kind: QuestionKind, options: seq<string>, required: bool, showIf: ShowIf)

  /** The answer under `key`, with a missing answer read as the empty string (both are falsy). */
  function AnswerOf(a: Answers, key: string): (v: string)
    ensures key !in a ==> v == ""
  {
    if key in a then a[key] else ""
  }

  // Business trip labels.
  const TransportationModeLabel := "Transportation Mode"
  const FlightTypeLabel := "Flight Type"
  const FlightDistanceLabel := "Total Flight Distance (in km)"
  const CarFuelTypeLabel := "Car Fuel Type"
  const CarDistanceLabel := "Total Distance (in km)"
  const FuelEfficiencyLabel := "Fuel Efficiency (km/L)"
  const OccupantsLabel := "Number of Occupants"
  const TripFrequencyLabel := "Trip Frequency"

  // Electricity labels.
  const OwnOfficeLabel := "Do you occupy your own office space?"
  const TotalAreaLabel := "What is the total area of the building? (Enter in square meters)"
  const OrganizationAreaLabel := "What is the total area occupied by your organization? (Enter in square meters)"
  const BuildingUsageLabel := "What is the total building energy consumption in the last 3 months? (Enter in kWh)"
  const MeteredUsageLabel := "If your electricity usage is separately metered, please enter your total electricity consumption in the last 3 months (in kWh):"
  const ProviderLabel := "Electricity Provider"

  // Commuting labels.
  const TotalEmployeesLabel := "Total Employees"
  const CommuteMethodLabel := "Primary Commute Method"
  const CommuteDistanceLabel := "Average Commute Distance"
  const RemoteWorkLabel := "Remote Work Percentage"

  const OnlyByAirplane := WhenAnswerIs(TransportationModeLabel, "Airplane")
  const OnlyByCar := WhenAnswerIs(TransportationModeLabel, "Car")

  const ModeQuestion := Question(TransportationModeLabel, Select, ["Airplane", "Car"], true, Always)
  const FlightTypeQuestion := Question(FlightTypeLabel, Select,
    ["Short-haul (< 500 km)", "Medium-haul (500-3700 km)", "Long-haul (> 3700 km)"], true, OnlyByAirplane)
  const FlightDistanceQuestion := Question(FlightDistanceLabel, Text, [], true, OnlyByAirplane)
  const FuelTypeQuestion := Question(CarFuelTypeLabel, Select, ["Gasoline", "Diesel", "Hybrid"], true, OnlyByCar)
  const CarDistanceQuestion := Question(CarDistanceLabel, Text, [], true, OnlyByCar)
  const FuelEfficiencyQuestion := Question(FuelEfficiencyLabel, Text, [], true, OnlyByCar)
  const OccupantsQuestion := Question(OccupantsLabel, Select, ["1", "2", "3", "4", "5+"], true, OnlyByCar)
  const FrequencyQuestion := Question(TripFrequencyLabel, Select,
    ["One-time trip", "Weekly", "Monthly", "Quarterly", "Annually"], true, Always)

  const ProviderQuestion := Question(ProviderLabel, Select, ["HK Electric", "CLP", "Other"], true, Always)

  const EmployeesQuestion := Question(TotalEmployeesLabel, Select, ["Less than 10", "10-50", "51-200", "Over 200"], false, Always)
  const CommuteMethodQuestion := Question(CommuteMethodLabel, Select,
    ["Public Transit", "Personal Vehicle", "Walking/Cycling", "Mixed"], false, Always)
  const CommuteDistanceQuestion := Question(CommuteDistanceLabel, Select,
    ["Less than 5km", "5-15km", "16-30km", "Over 30km"], false, Always)
  const RemoteWorkQuestion := Question(RemoteWorkLabel, Select, ["0%", "1-20%", "21-50%", "Over 50%"], false, Always)

  /** The questionnaire of each scenario, in display order. */
  function ScenarioQuestions(s: Scenario): (qs: seq<Question>)
    ensures |qs| > 0 && qs[0].showIf == Always
  {
    match s
    case BusinessTrip =>
      [ModeQuestion, FlightTypeQuestion, FlightDistanceQuestion, FuelTypeQuestion,
       CarDistanceQuestion, FuelEfficiencyQuestion, OccupantsQuestion, FrequencyQuestion]
    case Electricity =>
      [Question(OwnOfficeLabel, Radio, ["yes", "no_leased", "no_metered"], true, Always),
       Question(TotalAreaLabel, Text, [], true, Always),
       Question(OrganizationAreaLabel, Text, [], true, Always),
       Question(BuildingUsageLabel, Text, [], true, Always),
       Question(MeteredUsageLabel, Text, [], false, Always),
       ProviderQuestion]
    case Commuting =>
      [EmployeesQuestion, CommuteMethodQuestion, CommuteDistanceQuestion, RemoteWorkQuestion]
  }

  /** Strict equality of the stored answer with the expected value; a missing answer never matches. */
  predicate ShowIfHolds(c: ShowIf, a: Answers)
  {
    match c
    case Always => true
    case WhenAnswerIs(key, value) => key in a && a[key] == value
  }

  /**
   * A question gets its input control unless it has a `showIf` that is false
   * on the current answers. Its label is displayed either way.
   */
  predicate IsVisible(q: Question, a: Answers)
  {
    ShowIfHolds(q.showIf, a)
  }

  /** The questions of `qs` that get an input control, in their original order. */
  function VisibleQuestions(qs: seq<Question>, a: Answers): (r: seq<Question>)
    ensures |r| <= |qs|
  {
    if qs == [] then []
    else if IsVisible(qs[0], a) then [qs[0]] + VisibleQuestions(qs[1..], a)
    else VisibleQuestions(qs[1..], a)
  }

  /** Exactly the visible questions of `qs` get an input control. */
  lemma {:induction false} VisibleQuestionsMembers(qs: seq<Question>, a: Answers, q: Question)
    ensures q in VisibleQuestions(qs, a) <==> q in qs && IsVisible(q, a)
  {
    if qs != [] {
      VisibleQuestionsMembers(qs[1..], a, q);
      assert q in qs <==> q == qs[0] || q in qs[1..];
    }
  }

  /**
   * The question labels of one scenario are pairwise distinct, so one key of
   * the answer map belongs to one question.
   */
  lemma LabelsDistinct(s: Scenario, i: nat, j: nat)
    requires i < j < |ScenarioQuestions(s)|
    ensures ScenarioQuestions(s)[i].questionLabel != ScenarioQuestions(s)[j].questionLabel
  {
  }

  /**
   * Every `showIf` names a question that comes earlier in the same scenario,
   * and the value it waits for is one of that question's options.
   */
  lemma ShowIfRefersToEarlierQuestion(s: Scenario, i: nat)
    requires i < |ScenarioQuestions(s)|
    requires ScenarioQuestions(s)[i].showIf.WhenAnswerIs?
    ensures exists j :: (0 <= j < i
      && ScenarioQuestions(s)[j].questionLabel == ScenarioQuestions(s)[i].showIf.key
      && ScenarioQuestions(s)[i].showIf.value in ScenarioQuestions(s)[j].options)
  {
  }

  /** No Airplane-only question ever gets an input control together with a Car-only question. */
  lemma AirplaneAndCarQuestionsExclusive(p: Question, q: Question, a: Answers)
    requires p in ScenarioQuestions(BusinessTrip) && p.showIf == OnlyByAirplane
    requires q in ScenarioQuestions(BusinessTrip) && q.showIf == OnlyByCar
    ensures !(IsVisible(p, a) && IsVisible(q, a))
  {
  }

  /** Filtering distributes over concatenation. */
  lemma {:induction false} VisibleAppend(xs: seq<Question>, ys: seq<Question>, a: Answers)
    ensures VisibleQuestions(xs + ys, a) == VisibleQuestions(xs, a) + VisibleQuestions(ys, a)
  {
    if xs == [] {
      assert xs + ys == ys;
    } else {
      assert (xs + ys)[0] == xs[0];
      assert (xs + ys)[1..] == xs[1..] + ys;
      VisibleAppend(xs[1..], ys, a);
    }
  }

  /** A run of questions that are all visible passes the filter whole. */
  lemma {:induction false} AllVisible(qs: seq<Question>, a: Answers)
    requires forall q :: q in qs ==> IsVisible(q, a)
    ensures VisibleQuestions(qs, a) == qs
  {
    if qs != [] {
      AllVisible(qs[1..], a);
    }
  }

  /** A run of questions none of which is visible drops out of the filter. */
  lemma {:induction false} NoneVisible(qs: seq<Question>, a: Answers)
    requires forall q :: q in qs ==> !IsVisible(q, a)
    ensures VisibleQuestions(qs, a) == []
  {
    if qs != [] {
      NoneVisible(qs[1..], a);
    }
  }

  /** The business-trip form filtered group by group. */
  lemma BusinessTripGroups(a: Answers)
    ensures VisibleQuestions(ScenarioQuestions(BusinessTrip), a) ==
      [ModeQuestion]
      + (VisibleQuestions([FlightTypeQuestion, FlightDistanceQuestion], a)
      + (VisibleQuestions([FuelTypeQuestion, CarDistanceQuestion, FuelEfficiencyQuestion, OccupantsQuestion], a)
      + [FrequencyQuestion]))
  {
    var always, last := [ModeQuestion], [FrequencyQuestion];
    var airplane := [FlightTypeQuestion, FlightDistanceQuestion];
    var car := [FuelTypeQuestion, CarDistanceQuestion, FuelEfficiencyQuestion, OccupantsQuestion];
    assert ScenarioQuestions(BusinessTrip) == always + (airplane + (car + last));
    VisibleAppend(always, airplane + (car + last), a);
    VisibleAppend(airplane, car + last, a);
    VisibleAppend(car, last, a);
    AllVisible(always, a);
    AllVisible(last, a);
  }

  /** With "Airplane" chosen the mode, the two flight questions and the frequency get an input control. */
  lemma BusinessTripVisibleByAirplane(a: Answers)
    requires AnswerOf(a, TransportationModeLabel) == "Airplane"
    ensures VisibleQuestions(ScenarioQuestions(BusinessTrip), a) ==
      [ModeQuestion, FlightTypeQuestion, FlightDistanceQuestion, FrequencyQuestion]
  {
    BusinessTripGroups(a);
    AllVisible([FlightTypeQuestion, FlightDistanceQuestion], a);
    NoneVisible([FuelTypeQuestion, CarDistanceQuestion, FuelEfficiencyQuestion, OccupantsQuestion], a);
  }

  /** With "Car" chosen the mode, the four car questions and the frequency get an input control. */
  lemma BusinessTripVisibleByCar(a: Answers)
    requires AnswerOf(a, TransportationModeLabel) == "Car"
    ensures VisibleQuestions(ScenarioQuestions(BusinessTrip), a) ==
      [ModeQuestion, FuelTypeQuestion, CarDistanceQuestion, FuelEfficiencyQuestion, OccupantsQuestion, FrequencyQuestion]
  {
    BusinessTripGroups(a);
    NoneVisible([FlightTypeQuestion, FlightDistanceQuestion], a);
    AllVisible([FuelTypeQuestion, CarDistanceQuestion, FuelEfficiencyQuestion, OccupantsQuestion], a);
  }

  /** With no mode chosen (or any other value) only the mode and the frequency get an input control. */
  lemma BusinessTripVisibleWithoutMode(a: Answers)
    requires AnswerOf(a, TransportationModeLabel) !in {"Airplane", "Car"}
    ensures VisibleQuestions(ScenarioQuestions(BusinessTrip), a) == [ModeQuestion, FrequencyQuestion]
  {
    BusinessTripGroups(a);
    NoneVisible([FlightTypeQuestion, FlightDistanceQuestion], a);
    NoneVisible([FuelTypeQuestion, CarDistanceQuestion, FuelEfficiencyQuestion, OccupantsQuestion], a);
  }

  /** The electricity and commuting forms have no conditional question: every input control is always drawn. */
  lemma UnconditionalScenarios(s: Scenario, a: Answers)
    requires s != BusinessTrip
    ensures VisibleQuestions(ScenarioQuestions(s), a) == ScenarioQuestions(s)
  {
    AllVisible(ScenarioQuestions(s), a);
  }
}

=== FILE: session.dfy ===
/**
 * The demo page's session state: the active scenario, the answer map and the
 * displayed results, with the effect that recomputes the results whenever the
 * answers or the scenario change.
 */
module Session {
  import opened Wrappers
  import opened Questions
  import opened Calculators

  /** The calculator of a scenario. */
  function Calculate(s: Scenario, a: Answers, parse: string -> real): (r: Results)
    ensures r.organizationEmissions == Null <==> r == Incomplete
  {
    match s
    case Electricity => ElectricityEmissions(a, parse)
    case BusinessTrip => BusinessTripEmissions(a, parse)
    case Commuting => CommutingEmissions(a)
  }

  /**
   * The effect body: with a scenario active, its calculator's result replaces
   * the previous one; with none, the previous results stay.
   */
  function Dispatch(active: Option<Scenario>, a: Answers, parse: string -> real, previous: Results): (r: Results)
    ensures active.None? ==> r == previous
  {
    match active
    case None => previous
    case Some(s) => Calculate(s, a, parse)
  }

  /** Running the effect again on the same answers and scenario changes nothing. */
  lemma DispatchIdempotent(active: Option<Scenario>, a: Answers, parse: string -> real, previous: Results)
    ensures var once := Dispatch(active, a, parse, previous);
      Dispatch(active, a, parse, once) == once
  {
  }

  /** The `Demo` page component's state. `parse` stands for `parseFloat`. */
  class Demo {
    var activeScenario: Option<Scenario>
    var answers: Answers
    var calculationResults: Results
    const parse: string -> real

    /** The results on display: those of the active scenario's calculator, or all `null`. */
    ghost function Expected(): Results
      reads this
    {
      match activeScenario
      case None => Incomplete
      case Some(s) => Calculate(s, answers, parse)
    }

    /** The displayed results are never stale. */
    ghost predicate Valid()
      reads this
    {
      calculationResults == Expected()
    }

    /** The initial state: no scenario, no answers, all results `null`. */
    constructor (parse: string -> real)
      ensures Valid()
      ensures activeScenario == None && answers == map[] && calculationResults == Incomplete
      ensures this.parse == parse
    {
      activeScenario := None;
      answers := map[];
      calculationResults := Incomplete;
      this.parse := parse;
    }

    /** The effect that runs after the answers or the scenario change. */
    method Recompute()
      modifies this`calculationResults
      ensures calculationResults == Dispatch(activeScenario, answers, parse, old(calculationResults))
    {
      match activeScenario
      case None =>
      case Some(s) =>
        calculationResults := Calculate(s, answers, parse);
    }

    /**
     * `handleInputChange`: records one answer, leaving every other answer
     * and the scenario as they were, then recomputes.
     */
    method HandleInputChange(questionLabel: string, value: string)
      requires Valid()
      modifies this
      ensures Valid()
      ensures answers == old(answers)[questionLabel := value]
      ensures questionLabel in answers && answers[questionLabel] == value
      ensures forall k :: k != questionLabel ==> AnswerOf(answers, k) == AnswerOf(old(answers), k)
      ensures activeScenario == old(activeScenario)
      ensures calculationResults == Dispatch(activeScenario, answers, parse, old(calculationResults))
    {
      answers := answers[questionLabel := value];
      Recompute();
    }

    /**
     * A scenario button: replaces the active scenario and recomputes. The
     * answers are kept, so answers given in one scenario are still present
     * in the next.
     */
    method SetActiveScenario(s: Scenario)
      requires Valid()
      modifies this
      ensures Valid()
      ensures activeScenario == Some(s)
      ensures answers == old(answers)
      ensures calculationResults == Calculate(s, answers, parse)
    {
      activeScenario := Some(s);
      Recompute();
    }

    /**
     * `renderQuestion`'s `showIf` test against the current answers: a
     * question of the active scenario passes it exactly when it is among the
     * scenario's questions that get an input control.
     */
    function ShowsInput(q: Question): (drawn: bool)
      reads this
      ensures activeScenario.Some? && q in ScenarioQuestions(activeScenario.value) ==>
                (drawn <==> q in VisibleQuestions(ScenarioQuestions(activeScenario.value), answers))
    {
      VisibleQuestionsMembers(if activeScenario.Some? then ScenarioQuestions(activeScenario.value) else [], answers, q);
      IsVisible(q, answers)
    }
  }

  /**
   * A car fuel answered in the business-trip form is still in the answer map
   * after switching to the electricity scenario, and the electricity results
   * are computed from that same map.
   */
  method SwitchKeepsEarlierAnswers(parse: string -> real) returns (d: Demo)
    ensures d.activeScenario == Some(Electricity)
    ensures AnswerOf(d.answers, CarFuelTypeLabel) == "Diesel"
    ensures d.calculationResults == Incomplete
  {
    d := new Demo(parse);
    d.SetActiveScenario(BusinessTrip);
    d.HandleInputChange(TransportationModeLabel, "Car");
    d.HandleInputChange(CarFuelTypeLabel, "Diesel");
    d.SetActiveScenario(Electricity);
  }
}

=== FILE: text.dfy ===
/**
 * The two string operations the calculators rely on: JavaScript's
 * `String.prototype.includes` (substring test) and `toLowerCase`.
 */
module Text {

  /** `s` has `t` as a contiguous piece starting at index `i`. */
  ghost predicate OccursAt(s: string, t: string, i: int)
  {
    0 <= i && i + |t| <= |s| && s[i..i + |t|] == t
  }

  /** When `t` is not at the front of `s`, it occurs in `s` exactly when it occurs in `s[1..]`. */
  lemma OccursShift(s: string, t: string)
    requires |t| <= |s| && s[..|t|] != t
    ensures |s| > 0
    ensures (exists i :: OccursAt(s, t, i)) <==> (exists i :: OccursAt(s[1..], t, i))
  {
    forall i | OccursAt(s[1..], t, i)
      ensures OccursAt(s, t, i + 1)
    {
      assert s[i + 1..i + 1 + |t|] == s[1..][i..i + |t|];
    }
    forall i | OccursAt(s, t, i)
      ensures OccursAt(s[1..], t, i - 1)
    {
      assert i != 0;
      assert s[1..][i - 1..i - 1 + |t|] == s[i..i + |t|];
    }
  }

  /** `s.includes(t)`: some window of `s` equals `t`. */
  function Contains(s: string, t: string): (r: bool)
    ensures r <==> exists i :: OccursAt(s, t, i)
    decreases |s|
  {
    if |t| > |s| then
      false
    else if s[..|t|] == t then
      assert OccursAt(s, t, 0);
      true
    else
      OccursShift(s, t);
      Contains(s[1..], t)
  }

  /** A string that starts with `t` contains it. */
  lemma PrefixContained(s: string, t: string)
    requires |t| <= |s| && s[..|t|] == t
    ensures Contains(s, t)
  {
  }

  /** A string none of whose characters is the first character of `t` cannot contain `t`. */
  lemma MissingFirstCharacter(s: string, t: string)
    requires |t| > 0
    requires forall k :: 0 <= k < |s| ==> s[k] != t[0]
    ensures !Contains(s, t)
  {

  }

  /** JavaScript's `toLowerCase` on one character, for the ASCII range. */
  function LowerChar(c: char): (d: char)
  {
    if 'A' <= c <= 'Z' then (c as int - 'A' as int + 'a' as int) as char else c
  }

  /**
   * `s.toLowerCase()`: the same length, no upper-case ASCII letter left, and
   * every character that is not an upper-case letter kept as it was.
   */
  function ToLower(s: string): (r: string)
    ensures |r| == |s|
    ensures forall k :: 0 <= k < |r| ==> !('A' <= r[k] <= 'Z')
    ensures forall k :: 0 <= k < |s| && !('A' <= s[k] <= 'Z') ==> r[k] == s[k]
    ensures forall k :: 0 <= k < |s| && 'A' <= s[k] <= 'Z' ==> r[k] as int == s[k] as int + 32
  {
    seq(|s|, k requires 0 <= k < |s| => LowerChar(s[k]))
  }

  /** Only the empty string lower-cases to the empty string (it stays falsy). */
  lemma ToLowerEmpty(s: string)
    ensures ToLower(s) == "" <==> s == ""
  {
  }

  /** Lower-casing twice is lower-casing once. */
  lemma ToLowerIdempotent(s: string)
    ensures ToLower(ToLower(s)) == ToLower(s)
  {
  }
}

=== FILE: wrappers.dfy ===
/** The Some/None datatype used for table lookups that can miss. */
module Wrappers {

  datatype Option<+T> = None | Some(value: T)
}
